=== FILE: README.md ===
# Reservoir pump controller — Dafny model

A model of the pump-control core of an ESP32 firmware that keeps a water
reservoir between two levels. The model covers the control task's loop body:
hysteresis on the reservoir level for pump 1 (inflow), pump 2 (outflow)
following the opposite of pump 1, a two-second debounce clock for each of
those two pumps, and pump 3 (the well pump) switched on once when the control task
starts. It also covers the web server's `/control` toggle, the flow-rate
("debit") rule, and the pump-flag part of the `/sensor` report. Relay pins
are active-low, and that is modelled too.

Modules, following the program's structure:

- `Pumps` (`pumps.dfy`), for `src/main.cpp`. It holds the constants, the
  controller state (`pump1State`, `pump2State`, `pump3State`,
  `lastChangePump1`, `lastChangePump2`), `setup`'s relay writes, the start of
  the control task, and one loop iteration `Tick(state, level, now)`.
- `WebHandler` (`web_handler.dfy`), for
  `lib/WebServerHandler/WebServerHandler.cpp`. It holds `handleControl`, the
  debit rule, and the pump flags of `getSensorDataJSON`.
- `Station` (`station.dfy`). This is the whole system as one sequential state
  machine. Power-on is followed by any interleaving of loop iterations and
  toggle requests, each one atomic. The relay pin levels are tracked beside
  the flags. Every pin write is logged with its real time and its origin.
- `Wrappers` (`wrappers.dfy`) holds an `Option` type.

Modelling choices:

- Tick counts are `TickType_t`, a 32-bit unsigned value. `Elapsed(now, since)`
  is `(now - since) mod 2^32`, which is the unsigned subtraction the loop does.
  In runs, real time is a `nat`, and the counter reads `Now(at) = at mod 2^32`.
- `MIN_CHANGE_INTERVAL` is `2000 / TICK_PERIOD_MS`. `TICK_PERIOD_MS = 1`
  because the ESP32 Arduino core runs FreeRTOS at 1000 Hz. So the interval
  is 2000 ticks.
- The reservoir level is an `int`. The global is a `float`, but it is only
  ever assigned an `int` (`src/main.cpp:128-134`). Comparing it with the
  integer thresholds 2 and 4 is therefore exact.
- The `pump` argument is an `Option<string>`. `None` means `hasArg` is false.
  The reply body keeps the whole argument, NUL included, because `String`
  concatenation copies by length.
  An HTTP reply is a status code and a plain-text body.
- The debit is counted in thousandths of mL/s: `26785` stands for 26.785 mL/s.

Behaviour of the code worth knowing:

- A web toggle flips the flag and writes the relay at once. It does not
  consult or update the debounce clocks. `ToggleBypassesDebounce` shows
  pump 1's pin written twice at the same instant.
- Any present `pump` argument gets the reply 200 "Pompa <arg> toggled". An
  argument that names no pump changes nothing.
- The argument is compared with `"1"`, `"2"` and `"3"` by `String ==` against
  a C string, which is `strcmp`: it stops at the first NUL. So `pump=1%00x`
  names pump 1 (`PumpNamedStopsAtNul`).
- The debounce clocks start at 0 and the gate test is strict (`>`). So no
  loop change can happen during the first 2000 ticks. The first iteration
  after tick 2000 switches a pump on, whatever it reads: pump 1 if the
  reading is below 2 (`FirstOpenIterationSwitchesOn`), pump 2 otherwise
  (`FirstOpenIterationSwitchesOutflow`). The control task is created at the
  end of `setup`, after the WiFi wait, and `vTaskDelay` only spaces its
  iterations 200 ticks apart. So that iteration is at 2200 only if the
  iterations fall on multiples of 200 from tick 0. With iterations at 1850
  and 2050, it is at 2050.
- `ReadingScenario` is an idealised run with one iteration per reading, at
  readings 5, 1, 1, 1, 5 cm one second apart from tick 0. There the switch
  comes at 3000. The program never runs an iteration at tick 0, because the
  control task starts after `setup`.
- The comment on `WATER_LEVEL_OFF_THRESHOLD` (`src/main.cpp:25`) says pump 1
  goes off at 6 cm or more, but the constant is 4. The model uses 4.

## Model

| member | source | states |
|---|---|---|
| `Pumps.RelayLevel` | src/main.cpp:203 | A relay pin is driven LOW exactly when its pump is on (active-low relays). |
| `Pumps.Setup` | src/main.cpp:40-74 | At power-on all three flags are off and both debounce clocks are 0. Each pump's relay gets a write that matches its flag, and every write is HIGH. |
| `Pumps.StartControl` | src/main.cpp:185-186 | The control task switches pump 3 on and changes nothing else. The one relay write is LOW on pump 3's pin. |
| `Pumps.Elapsed` | src/main.cpp:200 | The unsigned tick difference: adding it to `since` gives `now` modulo 2^32. It equals `now - since` without a wrap, and `now - since + 2^32` after one. |
| `Pumps.DesiredInflow` | src/main.cpp:193-198 | Pump 1's target is a state the hysteresis permits: on below 2, off at or above 4. It keeps the current state whenever that state is permitted, so the dead band holds. |
| `Pumps.Debounce` | src/main.cpp:199-202 | A flag changes only when more than MIN_CHANGE_INTERVAL ticks have elapsed, and a change stamps the clock with `now`. Without a change the clock is untouched. With the gate open the flag reaches the target. |
| `Pumps.Tick` | src/main.cpp:189-219 | Pump 1 changes only through its open gate, and only into a permitted state. It holds whenever its state is permitted. Pump 2 moves only towards the opposite of pump 1's updated flag, behind its own clock, and reaches it when its gate is open. Pump 3 is untouched. The relay writes are exactly the changed pumps' commands. |
| `Pumps.TickIdempotent` | src/main.cpp:190-219 | A second loop iteration at the same tick with the same reading changes nothing and writes no relay. |
| `WebHandler.CText` | lib/WebServerHandler/WebServerHandler.cpp:262 | What `strcmp` compares: the longest NUL-free prefix of the argument, which is the whole argument or ends just before a NUL. |
| `WebHandler.PumpNamed` | lib/WebServerHandler/WebServerHandler.cpp:262-268 | The argument names a pump exactly when its text up to the first NUL is "1", "2" or "3". |
| `WebHandler.PumpNamedWhole` | lib/WebServerHandler/WebServerHandler.cpp:262-268 | An argument without a NUL names pump p exactly when it is p's whole string. |
| `WebHandler.PumpNamedStopsAtNul` | lib/WebServerHandler/WebServerHandler.cpp:262-268 | A pump's string followed by a NUL and anything else still names that pump. |
| `WebHandler.Toggled` | lib/WebServerHandler/WebServerHandler.cpp:262-271 | A toggle inverts the named pump's flag. The other flags and both debounce clocks are unchanged. |
| `WebHandler.HandleControl` | lib/WebServerHandler/WebServerHandler.cpp:259-276 | A missing argument gives 400 "Bad Request" and no change. Any present argument gives 200 "Pompa <arg> toggled". A pump named by the argument's text up to its first NUL is flipped, whatever its clock says, and its relay is written to match. Any other argument changes nothing and writes nothing. The clocks are never touched. |
| `WebHandler.ToggleInvolution` | lib/WebServerHandler/WebServerHandler.cpp:262-271 | Two identical requests in a row restore the controller state exactly. |
| `WebHandler.Debit` | lib/WebServerHandler/WebServerHandler.cpp:52-55 | The reported flow rate is 26.785 mL/s exactly when at least one pump is on, and 0 exactly when all are off. |
| `WebHandler.StatusFlagsRoundTrip` | lib/WebServerHandler/WebServerHandler.cpp:44-47 | The head of the sensor report, whatever follows it, reads back as the three flags in the order pump1, pump2, pump3, each as the literal `true` or `false`. |
| `WebHandler.StatusFlagsDistinguish` | lib/WebServerHandler/WebServerHandler.cpp:45-47 | Two states with the same report head agree on every pump flag. |
| `Station.Boot` | src/main.cpp:65-106 | After `setup` and the start of the control task, every relay pin shows its pump's flag. Only pump 3 runs, and both clocks read 0. |
| `Station.StepKeepsRelays` | lib/WebServerHandler/WebServerHandler.cpp:262-271 | A loop iteration or a toggle request leaves every relay pin showing its pump's flag. |
| `Station.RelaysFollowFlags` | src/main.cpp:201-203 | Over any run of loop iterations and requests, the relay pins keep matching the flags. |
| `Station.ElapsedExact` | src/main.cpp:200 | Less than one wrap after the last change, the tick difference equals the real time difference. |
| `Station.OpenGateMeansRealGap` | src/main.cpp:200-202 | An open gate implies that more than MIN_CHANGE_INTERVAL real ticks have passed since the last change, across any number of counter wraps. |
| `Station.GateOpensWithinWindow` | src/main.cpp:211-214 | Less than one wrap after the last change, the gate is open exactly when the real gap exceeds MIN_CHANGE_INTERVAL. |
| `Station.SpacingInvariant` | src/main.cpp:199-215 | Along any chronological run, each debounce clock holds, modulo 2^32, its pump's last loop change time. That time is 0 or the time of a loop write to the pump's pin, and no loop write to that pin comes later. Every loop write comes after tick 2000, and loop writes to one pin are pairwise spaced. |
| `Station.LoopChangesSpaced` | src/main.cpp:199-219 | Over any chronological run with toggles interleaved, two loop writes to the same relay pin are more than MIN_CHANGE_INTERVAL ticks apart. The loop never writes pump 3's pin, and it writes no pin in the first MIN_CHANGE_INTERVAL ticks. |
| `Station.AuxiliaryOnlyByRequest` | src/main.cpp:189-243 | Only a toggle request whose argument names pump 3 changes pump 3's flag. The loop never does. |
| `Station.AuxiliaryStaysOn` | src/main.cpp:185-186 | From power-on, pump 3 stays on as long as nobody toggles it, so the reported flow rate is the constant throughout. |
| `Station.DeadBandHolds` | src/main.cpp:193-198 | While every reading lies in [2, 4) and no request names pump 1, pump 1's flag and clock hold over the whole run. |
| `Station.EarlyLoopHolds` | src/main.cpp:199-215 | With both clocks at 0, loop iterations up to tick 2000 change no flag or clock and write nothing, whatever the readings. |
| `Station.FirstOpenIterationSwitchesOn` | src/main.cpp:189-215 | After loop iterations only up to tick 2000, whatever they read, the first iteration after tick 2000 (before the counter wraps), if its reading is below 2, switches pump 1 on at its own tick with one LOW write, and pump 2 stays off. |
| `Station.FirstOpenIterationSwitchesOutflow` | src/main.cpp:189-215 | After loop iterations only up to tick 2000, the first iteration after tick 2000 (before the counter wraps), if its reading is 2 or more, leaves pump 1 off and switches pump 2 on at its own tick with one LOW write. |
| `Station.ReadingScenario` | src/main.cpp:189-219 | With one loop iteration per reading, readings 5, 1, 1, 1, 5 at ticks 0 to 4000 switch pump 1 on at 3000 and never change pump 2. The only relay write is pump 1's LOW at 3000. |
| `Station.ToggleBypassesDebounce` | lib/WebServerHandler/WebServerHandler.cpp:262-264 | A loop change of pump 1 and a toggle in the same tick write pump 1's pin twice at the same instant. |
| `Station.WrapDefersChange` | src/main.cpp:190-200 | At real time 2^32 + 1000, with the last change at 0, the counter reads 1000 and a low reading leaves pump 1 off. |

## Left out

- Sensor acquisition is left out: the ultrasonic pulse timing, the float
  conversion `duration * 0.034 / 2`, the well level, and the GravityTDS
  reading. These are I/O, floating point and a foreign library. The reservoir
  level is an input of each loop iteration instead.
- FreeRTOS task creation, `vTaskDelay` pacing, and the unsynchronised sharing
  of globals between tasks are left out. Each loop iteration and each request
  is one atomic step, and all steps are interleaved in one sequence. Requests
  are taken to arrive only after the control task has started.
- WiFi, HTTP routing and `server.send` are left out. A reply is only its
  status code and body; the content type is not kept.
- The HTML page, its placeholder replacement, and the `/` and `/sensor`
  routes are left out. They are UI and plumbing.
- Only the pump-flag head of the sensor report is modelled. The reservoir,
  well, debit and TDS fields are float values formatted with `String(x, n)`,
  which is left out. The debit value itself is modelled by `Debit`.
- Pump 3's level-based hysteresis is commented out in the source, so it is not
  modelled. Its thresholds and `lastChangePump3` are not modelled either.
- The tick at which the control task starts is not modelled. Loop
  iterations may come at any real time, tick 0 included, so every property
  over runs also covers the program's later start. The concrete runs are
  idealised in this respect.
- Serial logging is left out. So is the unused `g_sumurPenuh` flag.

=== FILE: pumps.dfy ===
/**
  The pump control task of the reservoir controller: the relay wiring, the
  power-on state, and one iteration of the control loop (hysteresis for the
  inflow pump, mirroring for the outflow pump, a debounce clock per pump).
 */
module Pumps {

  /** FreeRTOS tick counts (`TickType_t`) are 32-bit unsigned integers. */
  const TICK_MODULUS: int := 0x1_0000_0000

  type TickCount = t: int | 0 <= t < TICK_MODULUS

  /** One FreeRTOS tick in milliseconds; the ESP32 Arduino core ticks at 1000 Hz. */
  const TICK_PERIOD_MS: int := 1

  /** Minimum number of ticks between two loop changes of one pump (two seconds). */
  const MIN_CHANGE_INTERVAL: int := 2000 / TICK_PERIOD_MS

  /** Reservoir level (cm) below which the inflow pump must run. */
  const WATER_LEVEL_ON_THRESHOLD: int := 2

  /** Reservoir level (cm) at or above which the inflow pump must stop. */
  const WATER_LEVEL_OFF_THRESHOLD: int := 4

  const PUMP1_PIN: nat := 25
  const PUMP2_PIN: nat := 27
  const PUMP3_PIN: nat := 26

  /** Pump 1 fills the reservoir, pump 2 drains it, pump 3 draws from the well. */
  datatype PumpId = Pump1 | Pump2 | Pump3

  function Pin(p: PumpId): nat
  {
    match p
    case Pump1 => PUMP1_PIN
    case Pump2 => PUMP2_PIN
    case Pump3 => PUMP3_PIN
  }

  datatype PinLevel = Low | High

  /** The relay board is active-low: driving a pin LOW switches its pump on. */
  function RelayLevel(on: bool): (l: PinLevel)
    ensures l == Low <==> on
  {
    if on then Low else High
  }

  /** One `digitalWrite` to a relay pin. */
  datatype PinWrite = PinWrite(pin: nat, level: PinLevel)

  /** The write that drives pump `p`'s relay so that the pump is `on`. */
  function Command(p: PumpId, on: bool): PinWrite
  {
    PinWrite(Pin(p), RelayLevel(on))
  }

  /**
    The controller's state: one on/off flag per pump, and the tick of the last
    loop change of each debounced pump (pump 3 has no clock).
   */
  datatype Controller = Controller(
    pump1: bool,
    pump2: bool,
    pump3: bool,
    lastChange1: TickCount,
    lastChange2: TickCount)
  {
    function IsOn(p: PumpId): bool
    {
      match p
      case Pump1 => pump1
      case Pump2 => pump2
      case Pump3 => pump3
    }
  }

  /** The globals as the program image initialises them. */
  const INITIAL: Controller := Controller(false, false, false, 0, 0)

  /** A new controller state together with the relay writes that accompany it, in order. */
  datatype Output = Output(next: Controller, writes: seq<PinWrite>)

  /**
    The relay writes that take the relays from `before`'s flags to `after`'s:
    one command per pump whose flag differs, pump 1 first, then pump 2, then pump 3.
   */
  function Changes(before: Controller, after: Controller): (ws: seq<PinWrite>)
    ensures forall p :: Command(p, after.IsOn(p)) in ws <==> before.IsOn(p) != after.IsOn(p)
    ensures forall i :: 0 <= i < |ws| ==> ws[i].pin in {PUMP1_PIN, PUMP2_PIN, PUMP3_PIN}
  {
    (if before.pump1 != after.pump1 then [Command(Pump1, after.pump1)] else [])
    + (if before.pump2 != after.pump2 then [Command(Pump2, after.pump2)] else [])
    + (if before.pump3 != after.pump3 then [Command(Pump3, after.pump3)] else [])
  }

  /**
    `setup`: all three relay pins are driven HIGH, so every pump starts off,
    matching the initial flags; both debounce clocks read 0.
   */
  function Setup(): (o: Output)
    ensures forall p :: !o.next.IsOn(p)
    ensures o.next.lastChange1 == 0 && o.next.lastChange2 == 0
    ensures forall p :: Command(p, o.next.IsOn(p)) in o.writes
    ensures forall i :: 0 <= i < |o.writes| ==> o.writes[i].level == High
  {
    Output(INITIAL, [PinWrite(PUMP1_PIN, High), PinWrite(PUMP2_PIN, High), PinWrite(PUMP3_PIN, High)])
  }

  /**
    Start of the control task: pump 3 is switched on, once, and nothing else
    changes; its relay pin is driven LOW.
   */
  function StartControl(c: Controller): (o: Output)
    ensures o.next.pump3
    ensures o.next == c.(pump3 := true)
    ensures o.writes == [Command(Pump3, true)] && o.writes[0].level == Low
  {
    Output(c.(pump3 := true), [PinWrite(PUMP3_PIN, Low)])
  }

  /** Unsigned 32-bit `now - since`: the ticks elapsed since `since`, modulo 2^32. */
  function Elapsed(now: TickCount, since: TickCount): (d: TickCount)
    ensures (since + d) % TICK_MODULUS == now
    ensures since <= now ==> d == now - since
    ensures now < since ==> d == now - since + TICK_MODULUS
  {
    (now - since) % TICK_MODULUS
  }

  /**
    The levels the hysteresis rule permits for the inflow pump: on below the
    on-threshold, off at or above the off-threshold, either in the dead band.
   */
  predicate InflowAllowed(level: int, on: bool)
  {
    && (level < WATER_LEVEL_ON_THRESHOLD ==> on)
    && (level >= WATER_LEVEL_OFF_THRESHOLD ==> !on)
  }

  predicate InDeadBand(level: int)
  {
    WATER_LEVEL_ON_THRESHOLD <= level < WATER_LEVEL_OFF_THRESHOLD
  }

  /**
    The inflow pump's target: a state the hysteresis rule permits, and the
    current state whenever that is permitted (so the dead band holds).
   */
  function DesiredInflow(level: int, current: bool): (on: bool)
    ensures InflowAllowed(level, on)
    ensures InflowAllowed(level, current) ==> on == current
  {
    if level < WATER_LEVEL_ON_THRESHOLD then true
    else if level >= WATER_LEVEL_OFF_THRESHOLD then false
    else current
  }

  /** A pump's flag and debounce clock after one gated decision. */
  datatype Gated = Gated(on: bool, lastChange: TickCount)

  /**
    The debounce gate shared by pumps 1 and 2: the flag moves to `desired`
    only when strictly more than MIN_CHANGE_INTERVAL ticks have elapsed since
    the last change, and a change stamps the clock with `now`.
   */
  function Debounce(current: bool, lastChange: TickCount, desired: bool, now: TickCount): (g: Gated)
    ensures g.on != current ==> Elapsed(now, lastChange) > MIN_CHANGE_INTERVAL && g.lastChange == now
    ensures g.on == current ==> g.lastChange == lastChange
    ensures Elapsed(now, lastChange) > MIN_CHANGE_INTERVAL ==> g.on == desired
  {
    if desired != current && Elapsed(now, lastChange) > MIN_CHANGE_INTERVAL then Gated(desired, now)
    else Gated(current, lastChange)
  }

  /**
    One iteration of the control loop at tick `now` with reservoir reading
    `level`: pump 1 follows the hysteresis rule, pump 2 then aims at the
    opposite of pump 1's updated flag, each behind its own debounce clock.
    Pump 3 is neither read nor written.
   */
  function Tick(c: Controller, level: int, now: TickCount): (o: Output)
    // pump 1: changes only through an open gate, and then into a permitted state
    ensures o.next.pump1 != c.pump1 ==> Elapsed(now, c.lastChange1) > MIN_CHANGE_INTERVAL && o.next.lastChange1 == now
    ensures o.next.pump1 == c.pump1 ==> o.next.lastChange1 == c.lastChange1
    ensures Elapsed(now, c.lastChange1) > MIN_CHANGE_INTERVAL ==> InflowAllowed(level, o.next.pump1)
    ensures InflowAllowed(level, c.pump1) ==> o.next.pump1 == c.pump1
    // pump 2: mirrors pump 1's updated flag, behind its own clock
    ensures o.next.pump2 != c.pump2 ==> Elapsed(now, c.lastChange2) > MIN_CHANGE_INTERVAL && o.next.lastChange2 == now
    ensures o.next.pump2 == c.pump2 ==> o.next.lastChange2 == c.lastChange2
    ensures o.next.pump2 != c.pump2 ==> o.next.pump2 == !o.next.pump1
    ensures Elapsed(now, c.lastChange2) > MIN_CHANGE_INTERVAL ==> o.next.pump2 == !o.next.pump1
    // pump 3 untouched; every flag change is matched by exactly its relay write
    ensures o.next.pump3 == c.pump3
    ensures o.writes == Changes(c, o.next)
  {
    var g1 := Debounce(c.pump1, c.lastChange1, DesiredInflow(level, c.pump1), now);
    var g2 := Debounce(c.pump2, c.lastChange2, !g1.on, now);
    var next := c.(pump1 := g1.on, lastChange1 := g1.lastChange, pump2 := g2.on, lastChange2 := g2.lastChange);
    Output(next,
           (if g1.on != c.pump1 then [Command(Pump1, g1.on)] else [])
           + (if g2.on != c.pump2 then [Command(Pump2, g2.on)] else []))
  }

  /** A second loop iteration at the same tick with the same reading does nothing. */
  lemma TickIdempotent(c: Controller, level: int, now: TickCount)
    ensures Tick(Tick(c, level, now).next, level, now) == Output(Tick(c, level, now).next, [])
  {
    var n := Tick(c, level, now).next;
    assert Elapsed(now, now) == 0;
    if n.pump1 == c.pump1 {
      assert InflowAllowed(level, n.pump1) ==> DesiredInflow(level, n.pump1) == n.pump1;
    }
  }
}

=== FILE: station.dfy ===
/**
  The whole pumping station as one sequential state machine: power-on, then
  any interleaving of control-loop iterations and web toggle requests, each
  an atomic step. The relay pins are tracked beside the controller flags, and
  every pin write is logged with the time it happened and who made it.
 */
module Station {
  import opened Wrappers
  import opened Pumps
  import opened WebHandler

  /** The level last written to each relay pin. */
  type Relays = map<nat, PinLevel>

  /** The controller's globals together with the physical relay pins. */
  datatype Plant = Plant(ctl: Controller, relays: Relays)

  /**
    A control-loop iteration reading reservoir level `level`, or a `/control`
    request, at real time `at` (ticks since power-on, never wrapping).
   */
  datatype Event =
    | LoopTick(level: int, at: nat)
    | WebToggle(pumpArg: Option<string>, at: nat)

  /** A relay write, when it happened, and whether the control loop made it. */
  datatype Actuation = Actuation(write: PinWrite, at: nat, byLoop: bool)

  /** The plant after a sequence of events and the relay writes made on the way. */
  datatype Trace = Trace(final: Plant, log: seq<Actuation>)

  /** The value `xTaskGetTickCount` returns at real time `at`: it wraps at 2^32. */
  function Now(at: nat): TickCount
  {
    at % TICK_MODULUS
  }

  /** Every relay pin carries the level that the active-low wiring demands of its pump's flag. */
  predicate Matches(relays: Relays, c: Controller)
  {
    forall p :: Pin(p) in relays && relays[Pin(p)] == RelayLevel(c.IsOn(p))
  }

  /** Performs the writes `ws` in order. */
  function Drive(relays: Relays, ws: seq<PinWrite>): Relays
    decreases |ws|
  {
    if |ws| == 0 then relays else Drive(relays[ws[0].pin := ws[0].level], ws[1..])
  }

  lemma {:induction false} DriveAppend(relays: Relays, xs: seq<PinWrite>, ys: seq<PinWrite>)
    ensures Drive(relays, xs + ys) == Drive(Drive(relays, xs), ys)
    decreases |xs|
  {
    if |xs| == 0 {
      assert xs + ys == ys;
    } else {
      assert (xs + ys)[1..] == xs[1..] + ys;
      DriveAppend(relays[xs[0].pin := xs[0].level], xs[1..], ys);
    }
  }

  lemma DriveSingle(relays: Relays, w: PinWrite)
    ensures Drive(relays, [w]) == relays[w.pin := w.level]
  {
    assert [w][1..] == [];
  }

  /** Writing one pump's command, when its flag changed, sets that pump's pin only. */
  lemma DriveIfChanged(relays: Relays, changed: bool, p: PumpId, on: bool)
    ensures Drive(relays, if changed then [Command(p, on)] else []) == if changed then relays[Pin(p) := RelayLevel(on)] else relays
  {
    if changed {
      DriveSingle(relays, Command(p, on));
    }
  }

  /** After the writes for the changes from `c` to `n`, a changed pump's pin shows its new flag and any other pin is as before. */
  lemma DriveChangesAt(relays: Relays, c: Controller, n: Controller)
    ensures forall p :: Pin(p) in relays ==>
      && Pin(p) in Drive(relays, Changes(c, n))
      && Drive(relays, Changes(c, n))[Pin(p)] == if c.IsOn(p) != n.IsOn(p) then RelayLevel(n.IsOn(p)) else relays[Pin(p)]
  {
    var w1 := if c.pump1 != n.pump1 then [Command(Pump1, n.pump1)] else [];
    var w2 := if c.pump2 != n.pump2 then [Command(Pump2, n.pump2)] else [];
    var w3 := if c.pump3 != n.pump3 then [Command(Pump3, n.pump3)] else [];
    assert Changes(c, n) == (w1 + w2) + w3;
    DriveAppend(relays, w1 + w2, w3);
    DriveAppend(relays, w1, w2);
    var r1 := Drive(relays, w1);
    var r2 := Drive(r1, w2);
    DriveIfChanged(relays, c.pump1 != n.pump1, Pump1, n.pump1);
    DriveIfChanged(r1, c.pump2 != n.pump2, Pump2, n.pump2);
    DriveIfChanged(r2, c.pump3 != n.pump3, Pump3, n.pump3);
  }

  /** Writing exactly the changed pumps' commands keeps the relays in step with the flags. */
  lemma DriveChanges(relays: Relays, c: Controller, n: Controller)
    requires Matches(relays, c)
    ensures Matches(Drive(relays, Changes(c, n)), n)
  {
    DriveChangesAt(relays, c, n);
  }

  /**
    Power-on: `setup` drives every relay HIGH with all flags off, then the
    control task switches pump 3 on. The relays agree with the flags, only
    pump 3 runs, and both debounce clocks read 0.
   */
  function Boot(): (p: Plant)
    ensures Matches(p.relays, p.ctl)
    ensures p.ctl.pump3 && !p.ctl.pump1 && !p.ctl.pump2
    ensures p.ctl.lastChange1 == 0 && p.ctl.lastChange2 == 0
  {
    var s := Setup();
    var r := StartControl(s.next);
    var w := s.writes;
    var r0: Relays := map[];
    var r1 := r0[w[0].pin := w[0].level];
    var r2 := r1[w[1].pin := w[1].level];
    DriveAppend(r0, [w[0]], [w[1], w[2]]);
    DriveAppend(r1, [w[1]], [w[2]]);
    assert w == [w[0]] + [w[1], w[2]] && [w[1], w[2]] == [w[1]] + [w[2]];
    DriveSingle(r0, w[0]);
    DriveSingle(r1, w[1]);
    DriveSingle(r2, w[2]);
    DriveSingle(Drive(r0, w), r.writes[0]);
    var relays := Drive(Drive(r0, w), r.writes);
    assert relays == map[PUMP1_PIN := High, PUMP2_PIN := High, PUMP3_PIN := Low];
    Plant(r.next, relays)
  }

  /** Stamps the writes of one step with its time and origin. */
  function Stamp(ws: seq<PinWrite>, at: nat, byLoop: bool): (log: seq<Actuation>)
    ensures |log| == |ws|
    ensures forall i :: 0 <= i < |ws| ==> log[i] == Actuation(ws[i], at, byLoop)
  {
    seq(|ws|, i requires 0 <= i < |ws| => Actuation(ws[i], at, byLoop))
  }

  /** One atomic step: a loop iteration at tick `Now(at)`, or a toggle request. */
  function Step(p: Plant, e: Event): (t: Trace)
    ensures e.LoopTick? ==> t.final.ctl == Tick(p.ctl, e.level, Now(e.at)).next
    ensures e.WebToggle? ==> t.final.ctl == HandleControl(p.ctl, e.pumpArg).next
    ensures forall i :: 0 <= i < |t.log| ==> t.log[i].at == e.at && t.log[i].byLoop == e.LoopTick?
    ensures t.log == Stamp(Changes(p.ctl, t.final.ctl), e.at, e.LoopTick?)
  {
    match e
    case LoopTick(level, at) =>
      var o := Tick(p.ctl, level, Now(at));
      Trace(Plant(o.next, Drive(p.relays, o.writes)), Stamp(o.writes, at, true))
    case WebToggle(pumpArg, at) =>
      var h := HandleControl(p.ctl, pumpArg);
      Trace(Plant(h.next, Drive(p.relays, h.writes)), Stamp(h.writes, at, false))
  }

  /** Every step, from either source, leaves the relays in agreement with the flags. */
  lemma StepKeepsRelays(p: Plant, e: Event)
    requires Matches(p.relays, p.ctl)
    ensures Matches(Step(p, e).final.relays, Step(p, e).final.ctl)
  {
    DriveChanges(p.relays, p.ctl, Step(p, e).final.ctl);
  }

  /** The events `es`, in order, from plant `start`. */
  function RunFrom(start: Plant, es: seq<Event>): Trace
    decreases |es|
  {
    if |es| == 0 then Trace(start, [])
    else
      var before := RunFrom(start, es[..|es| - 1]);
      var last := Step(before.final, es[|es| - 1]);
      Trace(last.final, before.log + last.log)
  }

  /** The events `es`, in order, from power-on. */
  function Run(es: seq<Event>): Trace
  {
    RunFrom(Boot(), es)
  }

  /** Over any run, every relay pin keeps showing its pump's flag. */
  lemma {:induction false} RelaysFollowFlags(start: Plant, es: seq<Event>)
    requires Matches(start.relays, start.ctl)
    ensures Matches(RunFrom(start, es).final.relays, RunFrom(start, es).final.ctl)
    decreases |es|
  {
    if |es| > 0 {
      RelaysFollowFlags(start, es[..|es| - 1]);
      StepKeepsRelays(RunFrom(start, es[..|es| - 1]).final, es[|es| - 1]);
    }
  }

  // ---------------------------------------------------------------------------
  // Debounce across a run

  /** Events arrive in order of real time. */
  predicate Chronological(es: seq<Event>)
  {
    forall i, j :: 0 <= i < j < |es| ==> es[i].at <= es[j].at
  }

  /** Real time of the latest event, 0 (power-on) when there is none. */
  function LastTime(es: seq<Event>): nat
  {
    if |es| == 0 then 0 else es[|es| - 1].at
  }

  /** Any two loop writes to the same relay pin lie more than MIN_CHANGE_INTERVAL ticks apart. */
  predicate LoopSpaced(log: seq<Actuation>)
  {
    forall i, j ::
      0 <= i < j < |log| && log[i].byLoop && log[j].byLoop && log[i].write.pin == log[j].write.pin ==>
        log[j].at - log[i].at > MIN_CHANGE_INTERVAL
  }

  /**
    A loop write is to pump 1's or pump 2's pin, comes after the first
    MIN_CHANGE_INTERVAL ticks, and is no later than that pump's last change
    time (`a1` or `a2`).
   */
  predicate LoopEntryBounded(a: Actuation, a1: nat, a2: nat)
  {
    && MIN_CHANGE_INTERVAL < a.at
    && ((a.write.pin == PUMP1_PIN && a.at <= a1) || (a.write.pin == PUMP2_PIN && a.at <= a2))
  }

  /** With no wrap in between, the unsigned tick difference is the real time difference. */
  lemma ElapsedExact(a: nat, t: nat)
    requires a <= t < a + TICK_MODULUS
    ensures Elapsed(Now(t), Now(a)) == t - a
  {
    var q := a / TICK_MODULUS;
    var r := a % TICK_MODULUS;
    var g := t - a;
    assert a == q * TICK_MODULUS + r;
    if r + g < TICK_MODULUS {
      assert t == q * TICK_MODULUS + (r + g);
      assert Now(t) == r + g;
    } else {
      assert t == (q + 1) * TICK_MODULUS + (r + g - TICK_MODULUS);
      assert Now(t) == r + g - TICK_MODULUS;
    }
  }

  /** An open gate means that more than MIN_CHANGE_INTERVAL real ticks have passed. */
  lemma OpenGateMeansRealGap(a: nat, t: nat)
    requires a <= t
    requires Elapsed(Now(t), Now(a)) > MIN_CHANGE_INTERVAL
    ensures t - a > MIN_CHANGE_INTERVAL
  {
    if t - a <= MIN_CHANGE_INTERVAL {
      ElapsedExact(a, t);
    }
  }

  /** Less than one wrap after the last change, the gate opens exactly when the real gap exceeds the interval. */
  lemma GateOpensWithinWindow(a: nat, t: nat)
    requires a <= t < a + TICK_MODULUS
    ensures Elapsed(Now(t), Now(a)) > MIN_CHANGE_INTERVAL <==> t - a > MIN_CHANGE_INTERVAL
  {
    ElapsedExact(a, t);
  }

  /** Loop writes of the log are bounded by the change times `a1`, `a2` and pairwise spaced. */
  predicate SpacingHolds(log: seq<Actuation>, a1: nat, a2: nat)
  {
    && (forall i :: 0 <= i < |log| && log[i].byLoop ==> LoopEntryBounded(log[i], a1, a2))
    && LoopSpaced(log)
  }

  /**
    The writes of one loop iteration at real time `t`: each is to pump 1's pin
    when pump 1 changed (`changed1`) or to pump 2's pin when pump 2 changed,
    and no pin is written twice.
   */
  predicate FreshLoopWrites(added: seq<Actuation>, t: nat, changed1: bool, changed2: bool)
  {
    && (forall k :: 0 <= k < |added| ==>
          && added[k].byLoop && added[k].at == t
          && ((added[k].write.pin == PUMP1_PIN && changed1) || (added[k].write.pin == PUMP2_PIN && changed2)))
    && (forall k, l :: 0 <= k < l < |added| ==> added[k].write.pin != added[l].write.pin)
  }

  /** The writes a loop iteration logs are exactly the fresh writes of the pumps it changed. */
  lemma TickWritesFresh(p: Plant, level: int, t: nat)
    ensures FreshLoopWrites(Step(p, LoopTick(level, t)).log, t,
                            Step(p, LoopTick(level, t)).final.ctl.pump1 != p.ctl.pump1,
                            Step(p, LoopTick(level, t)).final.ctl.pump2 != p.ctl.pump2)
  {
    var c := p.ctl;
    var n := Step(p, LoopTick(level, t)).final.ctl;
    var log := Step(p, LoopTick(level, t)).log;
    var ws := Changes(c, n);
    assert n.pump3 == c.pump3;
    assert ws == (if c.pump1 != n.pump1 then [Command(Pump1, n.pump1)] else [])
               + (if c.pump2 != n.pump2 then [Command(Pump2, n.pump2)] else []);
    assert forall k :: 0 <= k < |log| ==> log[k].write == ws[k];
  }

  /** Appending writes that are not the loop's keeps the spacing bookkeeping. */
  lemma ExtendSpacingByRequest(log: seq<Actuation>, added: seq<Actuation>, a1: nat, a2: nat)
    requires SpacingHolds(log, a1, a2)
    requires forall k :: 0 <= k < |added| ==> !added[k].byLoop
    ensures SpacingHolds(log + added, a1, a2)
  {
    var all := log + added;
    assert forall i :: 0 <= i < |all| && all[i].byLoop ==> i < |log| && all[i] == log[i];
  }

  /**
    Appending one loop iteration's writes at time `t` keeps the spacing
    bookkeeping, provided each changed pump's gap since its last change
    exceeds MIN_CHANGE_INTERVAL and its change time moves up to `t`.
   */
  lemma ExtendSpacingByLoop(log: seq<Actuation>, added: seq<Actuation>, t: nat,
                            changed1: bool, changed2: bool, b1: nat, b2: nat, a1: nat, a2: nat)
    requires SpacingHolds(log, b1, b2)
    requires FreshLoopWrites(added, t, changed1, changed2)
    requires b1 <= a1 && b2 <= a2
    requires changed1 ==> a1 == t && t - b1 > MIN_CHANGE_INTERVAL
    requires changed2 ==> a2 == t && t - b2 > MIN_CHANGE_INTERVAL
    ensures SpacingHolds(log + added, a1, a2)
  {
    var all := log + added;
    forall i | 0 <= i < |all| && all[i].byLoop
      ensures LoopEntryBounded(all[i], a1, a2)
    {
      if i < |log| {
        assert all[i] == log[i];
      } else {
        assert all[i] == added[i - |log|];
      }
    }
    forall i, j | 0 <= i < j < |all| && all[i].byLoop && all[j].byLoop && all[i].write.pin == all[j].write.pin
      ensures all[j].at - all[i].at > MIN_CHANGE_INTERVAL
    {
      if j < |log| {
        assert all[i] == log[i] && all[j] == log[j];
      } else if i < |log| {
        assert all[i] == log[i] && all[j] == added[j - |log|];
        assert LoopEntryBounded(log[i], b1, b2);
      } else {
        assert false;
      }
    }
  }

  /** Running one more event appends that event's step to the run. */
  lemma RunSnoc(start: Plant, es: seq<Event>, e: Event)
    ensures RunFrom(start, es + [e]) == Trace(Step(RunFrom(start, es).final, e).final,
                                              RunFrom(start, es).log + Step(RunFrom(start, es).final, e).log)
  {
    assert (es + [e])[..|es|] == es;
  }

  /** Dropping the latest event keeps a run chronological, and that event is the latest in time. */
  lemma ChronologicalPrefix(es: seq<Event>)
    requires Chronological(es) && |es| > 0
    ensures Chronological(es[..|es| - 1])
    ensures LastTime(es[..|es| - 1]) <= es[|es| - 1].at
  {
  }

  /** The loop wrote relay pin `pin` at real time `a`. */
  predicate LoopWroteAt(log: seq<Actuation>, pin: nat, a: nat)
  {
    exists i :: 0 <= i < |log| && log[i].byLoop && log[i].write.pin == pin && log[i].at == a
  }

  /** `a` is 0 (no loop change yet) or the time of a loop write to `pin`. */
  predicate ChangeRecorded(log: seq<Actuation>, pin: nat, a: nat)
  {
    a == 0 || LoopWroteAt(log, pin, a)
  }

  /** A recorded loop write stays recorded when more writes are appended. */
  lemma RecordedKept(log: seq<Actuation>, added: seq<Actuation>, pin: nat, a: nat)
    requires ChangeRecorded(log, pin, a)
    ensures ChangeRecorded(log + added, pin, a)
  {
    if a != 0 {
      var i :| 0 <= i < |log| && log[i].byLoop && log[i].write.pin == pin && log[i].at == a;
      assert (log + added)[i] == log[i];
    }
  }

  /** A loop iteration that changes pump `q` logs a write to `q`'s pin at its own time, after the earlier log. */
  lemma LoopChangeRecorded(log: seq<Actuation>, p: Plant, level: int, t: nat, q: PumpId)
    requires Step(p, LoopTick(level, t)).final.ctl.IsOn(q) != p.ctl.IsOn(q)
    ensures LoopWroteAt(log + Step(p, LoopTick(level, t)).log, Pin(q), t)
  {
    var st := Step(p, LoopTick(level, t));
    var ws := Changes(p.ctl, st.final.ctl);
    assert Command(q, st.final.ctl.IsOn(q)) in ws;
    var k :| 0 <= k < |ws| && ws[k] == Command(q, st.final.ctl.IsOn(q));
    assert (log + st.log)[|log| + k] == Actuation(ws[k], t, true);
  }

  /**
    One step of the debounce bookkeeping: from a run whose pumps last changed
    at real times `b1`, `b2` (held modulo 2^32 by the clocks), an event at or
    after time `last` yields the new change times `a1`, `a2`.
   */
  lemma SpacingStep(prev: Trace, e: Event, last: nat, b1: nat, b2: nat) returns (a1: nat, a2: nat)
    requires prev.final.ctl.lastChange1 == Now(b1) && prev.final.ctl.lastChange2 == Now(b2)
    requires b1 <= last && b2 <= last && last <= e.at
    requires SpacingHolds(prev.log, b1, b2)
    requires ChangeRecorded(prev.log, PUMP1_PIN, b1) && ChangeRecorded(prev.log, PUMP2_PIN, b2)
    ensures Step(prev.final, e).final.ctl.lastChange1 == Now(a1)
    ensures Step(prev.final, e).final.ctl.lastChange2 == Now(a2)
    ensures a1 <= e.at && a2 <= e.at
    ensures SpacingHolds(prev.log + Step(prev.final, e).log, a1, a2)
    ensures ChangeRecorded(prev.log + Step(prev.final, e).log, PUMP1_PIN, a1)
    ensures ChangeRecorded(prev.log + Step(prev.final, e).log, PUMP2_PIN, a2)
  {
    var c := prev.final.ctl;
    var st := Step(prev.final, e);
    var n := st.final.ctl;
    if e.WebToggle? {
      a1, a2 := b1, b2;
      ExtendSpacingByRequest(prev.log, st.log, a1, a2);
      RecordedKept(prev.log, st.log, PUMP1_PIN, a1);
      RecordedKept(prev.log, st.log, PUMP2_PIN, a2);
    } else {
      var t := e.at;
      if n.pump1 != c.pump1 {
        OpenGateMeansRealGap(b1, t);
        a1 := t;
        LoopChangeRecorded(prev.log, prev.final, e.level, t, Pump1);
      } else {
        a1 := b1;
        RecordedKept(prev.log, st.log, PUMP1_PIN, a1);
      }
      if n.pump2 != c.pump2 {
        OpenGateMeansRealGap(b2, t);
        a2 := t;
        LoopChangeRecorded(prev.log, prev.final, e.level, t, Pump2);
      } else {
        a2 := b2;
        RecordedKept(prev.log, st.log, PUMP2_PIN, a2);
      }
      TickWritesFresh(prev.final, e.level, t);
      ExtendSpacingByLoop(prev.log, st.log, t, n.pump1 != c.pump1, n.pump2 != c.pump2, b1, b2, a1, a2);
    }
  }

  /**
    The run's bookkeeping for the debounce theorem: `a1` and `a2` are the real
    times of the latest loop change of pumps 1 and 2 (0 before any), and the
    clocks hold them modulo 2^32. Each is the time of an actual loop write to
    its pump's pin (or 0), and every loop write so far is bounded by them, so
    each is the latest such write.
   */
  lemma {:induction false} SpacingInvariant(es: seq<Event>) returns (a1: nat, a2: nat)
    requires Chronological(es)
    ensures Run(es).final.ctl.lastChange1 == Now(a1) && Run(es).final.ctl.lastChange2 == Now(a2)
    ensures a1 <= LastTime(es) && a2 <= LastTime(es)
    ensures SpacingHolds(Run(es).log, a1, a2)
    ensures ChangeRecorded(Run(es).log, PUMP1_PIN, a1) && ChangeRecorded(Run(es).log, PUMP2_PIN, a2)
    decreases |es|
  {
    if |es| == 0 {
      return 0, 0;
    }
    var init := es[..|es| - 1];
    ChronologicalPrefix(es);
    var b1, b2 := SpacingInvariant(init);
    a1, a2 := SpacingStep(Run(init), es[|es| - 1], LastTime(init), b1, b2);
  }

  /**
    No relay chatter from the control loop: over any chronological run from
    power-on, with toggle requests interleaved anywhere, two loop writes to the
    same pin are more than MIN_CHANGE_INTERVAL ticks apart, even across the
    2^32 wrap of the tick counter. The loop never writes pump 3's pin, and its
    first write to any pin comes after the first MIN_CHANGE_INTERVAL ticks.
   */
  lemma LoopChangesSpaced(es: seq<Event>)
    requires Chronological(es)
    ensures LoopSpaced(Run(es).log)
    ensures forall i :: 0 <= i < |Run(es).log| && Run(es).log[i].byLoop ==>
              Run(es).log[i].write.pin != PUMP3_PIN && Run(es).log[i].at > MIN_CHANGE_INTERVAL
  {
    var a1, a2 := SpacingInvariant(es);
    assert SpacingHolds(Run(es).log, a1, a2);
  }

  // ---------------------------------------------------------------------------
  // Pump 3 and the dead band across a run

  /** A request whose argument names pump 3. */
  predicate TogglesAuxiliary(e: Event)
  {
    e.WebToggle? && e.pumpArg.Some? && PumpNamed(e.pumpArg.value) == Some(Pump3)
  }

  /** Only a toggle request naming pump 3 ever changes its flag; the loop never does. */
  lemma {:induction false} AuxiliaryOnlyByRequest(start: Plant, es: seq<Event>)
    requires forall i :: 0 <= i < |es| ==> !TogglesAuxiliary(es[i])
    ensures RunFrom(start, es).final.ctl.pump3 == start.ctl.pump3
    decreases |es|
  {
    if |es| > 0 {
      AuxiliaryOnlyByRequest(start, es[..|es| - 1]);
      var e := es[|es| - 1];
      if e.WebToggle? && e.pumpArg.Some? {
        assert PumpNamed(e.pumpArg.value) != Some(Pump3);
      }
    }
  }

  /**
    Pump 3 runs from power-on for as long as nobody toggles it over the web,
    so the reported flow rate is the fixed constant throughout.
   */
  lemma AuxiliaryStaysOn(es: seq<Event>)
    requires forall i :: 0 <= i < |es| ==> !TogglesAuxiliary(es[i])
    ensures Run(es).final.ctl.pump3
    ensures Debit(Run(es).final.ctl) == DEBIT
  {
    AuxiliaryOnlyByRequest(Boot(), es);
    assert Run(es).final.ctl.IsOn(Pump3);
  }

  /** A loop iteration whose reading lies in the dead band, or a request whose argument does not name pump 1. */
  predicate KeepsInflow(e: Event)
  {
    match e
    case LoopTick(level, _) => InDeadBand(level)
    case WebToggle(pumpArg, _) => pumpArg.None? || PumpNamed(pumpArg.value) != Some(Pump1)
  }

  /** While readings stay inside the dead band and nobody toggles pump 1, pump 1 and its clock hold. */
  lemma {:induction false} DeadBandHolds(start: Plant, es: seq<Event>)
    requires forall i :: 0 <= i < |es| ==> KeepsInflow(es[i])
    ensures RunFrom(start, es).final.ctl.pump1 == start.ctl.pump1
    ensures RunFrom(start, es).final.ctl.lastChange1 == start.ctl.lastChange1
    decreases |es|
  {
    if |es| > 0 {
      DeadBandHolds(start, es[..|es| - 1]);
      var e := es[|es| - 1];
      var c := RunFrom(start, es[..|es| - 1]).final.ctl;
      if e.LoopTick? {
        assert InflowAllowed(e.level, c.pump1);
      } else if e.pumpArg.Some? {
        assert PumpNamed(e.pumpArg.value) != Some(Pump1);
      }
    }
  }

  // ---------------------------------------------------------------------------
  // Concrete runs

  /**
    One loop iteration per reading, readings 5, 1, 1, 1, 5 cm one second
    apart from power-on. The clock starts at 0 and the gate is strict, so
    pump 1 cannot switch on at 1000 or 2000 ticks; it does at 3000 and, the
    gate being shut again, stays on through the high reading at 4000. Pump 2
    never changes: its gate opens only at 3000, when pump 1 has just come on
    and pump 2 is already off. The control task really runs every 200 ticks
    from a start that `setup` leaves open, and never at tick 0;
    `FirstOpenIterationSwitchesOn` covers that pace.
   */
  lemma ReadingScenario()
    ensures Run([LoopTick(5, 0), LoopTick(1, 1000), LoopTick(1, 2000), LoopTick(1, 3000), LoopTick(5, 4000)]).final.ctl
            == Controller(true, false, true, 3000, 0)
    ensures Run([LoopTick(5, 0), LoopTick(1, 1000), LoopTick(1, 2000), LoopTick(1, 3000), LoopTick(5, 4000)]).log
            == [Actuation(PinWrite(PUMP1_PIN, Low), 3000, true)]
  {
    var b := Boot();
    assert b.ctl == Controller(false, false, true, 0, 0);
    ScenarioFirstReadings(b);
    ScenarioLastReadings(b);
  }

  /** The last two readings of `ReadingScenario`: pump 1 comes on at 3000 and then holds. */
  lemma ScenarioLastReadings(b: Plant)
    requires RunFrom(b, [LoopTick(5, 0), LoopTick(1, 1000), LoopTick(1, 2000)]).final.ctl == Controller(false, false, true, 0, 0)
    requires RunFrom(b, [LoopTick(5, 0), LoopTick(1, 1000), LoopTick(1, 2000)]).log == []
    ensures RunFrom(b, [LoopTick(5, 0), LoopTick(1, 1000), LoopTick(1, 2000), LoopTick(1, 3000), LoopTick(5, 4000)]).final.ctl
            == Controller(true, false, true, 3000, 0)
    ensures RunFrom(b, [LoopTick(5, 0), LoopTick(1, 1000), LoopTick(1, 2000), LoopTick(1, 3000), LoopTick(5, 4000)]).log
            == [Actuation(PinWrite(PUMP1_PIN, Low), 3000, true)]
  {
    var es := [LoopTick(5, 0), LoopTick(1, 1000), LoopTick(1, 2000)];
    var write := Actuation(PinWrite(PUMP1_PIN, Low), 3000, true);
    var on := Controller(true, false, true, 3000, 0);
    RunLoopStep(b, es, 1, 3000, on, [write]);
    RunLoopStep(b, es + [LoopTick(1, 3000)], 5, 4000, on, [write]);
    assert es + [LoopTick(1, 3000)] + [LoopTick(5, 4000)]
        == [LoopTick(5, 0), LoopTick(1, 1000), LoopTick(1, 2000), LoopTick(1, 3000), LoopTick(5, 4000)];
  }

  /** The first three readings of `ReadingScenario` leave every flag and clock as at power-on. */
  lemma ScenarioFirstReadings(b: Plant)
    requires b.ctl == Controller(false, false, true, 0, 0)
    ensures RunFrom(b, [LoopTick(5, 0), LoopTick(1, 1000), LoopTick(1, 2000)]).final.ctl == b.ctl
    ensures RunFrom(b, [LoopTick(5, 0), LoopTick(1, 1000), LoopTick(1, 2000)]).log == []
  {
    RunLoopStep(b, [], 5, 0, b.ctl, []);
    RunLoopStep(b, [LoopTick(5, 0)], 1, 1000, b.ctl, []);
    RunLoopStep(b, [LoopTick(5, 0), LoopTick(1, 1000)], 1, 2000, b.ctl, []);
    assert [] + [LoopTick(5, 0)] == [LoopTick(5, 0)];
    assert [LoopTick(5, 0)] + [LoopTick(1, 1000)] == [LoopTick(5, 0), LoopTick(1, 1000)];
    assert [LoopTick(5, 0), LoopTick(1, 1000)] + [LoopTick(1, 2000)] == [LoopTick(5, 0), LoopTick(1, 1000), LoopTick(1, 2000)];
  }

  /**
    Extends the run of `es` from `start` by one loop iteration with reading
    `level` at real time `at`, given the controller state `n` and the whole
    log `log` it leads to.
   */
  lemma RunLoopStep(start: Plant, es: seq<Event>, level: int, at: nat, n: Controller, log: seq<Actuation>)
    requires Tick(RunFrom(start, es).final.ctl, level, Now(at)).next == n
    requires RunFrom(start, es).log + Stamp(Changes(RunFrom(start, es).final.ctl, n), at, true) == log
    ensures RunFrom(start, es + [LoopTick(level, at)]).final.ctl == n
    ensures RunFrom(start, es + [LoopTick(level, at)]).log == log
  {
    RunSnoc(start, es, LoopTick(level, at));
  }

  /** A loop iteration in which both debounce clocks still read 0. */
  predicate BeforeGate(e: Event)
  {
    e.LoopTick? && e.at <= MIN_CHANGE_INTERVAL
  }

  /**
    From a state whose clocks read 0, loop iterations up to tick
    MIN_CHANGE_INTERVAL change nothing and write nothing, whatever the readings.
   */
  lemma {:induction false} EarlyLoopHolds(start: Plant, es: seq<Event>)
    requires start.ctl.lastChange1 == 0 && start.ctl.lastChange2 == 0
    requires forall i :: 0 <= i < |es| ==> BeforeGate(es[i])
    ensures RunFrom(start, es).final.ctl == start.ctl
    ensures RunFrom(start, es).log == []
    decreases |es|
  {
    if |es| > 0 {
      EarlyLoopHolds(start, es[..|es| - 1]);
      var e := es[|es| - 1];
      assert BeforeGate(e);
      assert Elapsed(Now(e.at), 0) == e.at;
    }
  }

  /**
    The first gate opening. The control task starts at a tick that `setup`
    leaves open (it waits for WiFi first) and then runs every 200 ticks, so
    its iterations need not fall on multiples of 200. Whatever the readings of
    the iterations up to tick 2000, the first iteration after tick 2000
    (before the counter wraps) switches a pump on at its own tick, whatever
    it reads: pump 1 if the reading is below 2 (this lemma), pump 2 otherwise
    (`FirstOpenIterationSwitchesOutflow`).
   */
  lemma FirstOpenIterationSwitchesOn(es: seq<Event>, level: int, at: nat)
    requires forall i :: 0 <= i < |es| ==> BeforeGate(es[i])
    requires level < WATER_LEVEL_ON_THRESHOLD
    requires MIN_CHANGE_INTERVAL < at < TICK_MODULUS
    ensures Run(es + [LoopTick(level, at)]).final.ctl == Controller(true, false, true, Now(at), 0)
    ensures Run(es + [LoopTick(level, at)]).log == [Actuation(PinWrite(PUMP1_PIN, Low), at, true)]
  {
    var b := Boot();
    EarlyLoopHolds(b, es);
    assert Elapsed(Now(at), 0) == at;
    RunLoopStep(b, es, level, at, Controller(true, false, true, Now(at), 0),
                [Actuation(PinWrite(PUMP1_PIN, Low), at, true)]);
  }

  /**
    The other half of the first gate opening: with a reading of 2 cm or more,
    pump 1 stays off, so pump 2's target (the opposite of pump 1) is on, and
    pump 2 switches on at that iteration's tick with one LOW write.
   */
  lemma FirstOpenIterationSwitchesOutflow(es: seq<Event>, level: int, at: nat)
    requires forall i :: 0 <= i < |es| ==> BeforeGate(es[i])
    requires level >= WATER_LEVEL_ON_THRESHOLD
    requires MIN_CHANGE_INTERVAL < at < TICK_MODULUS
    ensures Run(es + [LoopTick(level, at)]).final.ctl == Controller(false, true, true, 0, Now(at))
    ensures Run(es + [LoopTick(level, at)]).log == [Actuation(PinWrite(PUMP2_PIN, Low), at, true)]
  {
    var b := Boot();
    EarlyLoopHolds(b, es);
    assert Elapsed(Now(at), 0) == at;
    RunLoopStep(b, es, level, at, Controller(false, true, true, 0, Now(at)),
                [Actuation(PinWrite(PUMP2_PIN, Low), at, true)]);
  }

  /**
    A toggle request ignores the debounce clock: one loop iteration switches
    pump 1 on and a request in the same tick switches it straight off, so its
    relay pin is written twice at the same instant.
   */
  lemma ToggleBypassesDebounce()
    ensures Run([LoopTick(0, 2001), WebToggle(Some("1"), 2001)]).log
            == [Actuation(PinWrite(PUMP1_PIN, Low), 2001, true), Actuation(PinWrite(PUMP1_PIN, High), 2001, false)]
  {
    var e0, e1 := LoopTick(0, 2001), WebToggle(Some("1"), 2001);
    RunSnoc(Boot(), [], e0);
    assert Run([e0]).final.ctl == Controller(true, false, true, 2001, 0);
    assert Run([e0]).log == [Actuation(PinWrite(PUMP1_PIN, Low), 2001, true)];
    RunSnoc(Boot(), [e0], e1);
    assert [e0] + [e1] == [e0, e1];
  }

  /**
    The tick counter wraps after 2^32 ticks: with the last change at 0, at real
    time 2^32 + 1000 the counter reads 1000 and the gate stays shut although
    far more than two seconds have passed, so a low reading is left waiting.
   */
  lemma WrapDefersChange()
    ensures Now(TICK_MODULUS + 1000) == 1000
    ensures !Tick(Boot().ctl, 0, Now(TICK_MODULUS + 1000)).next.pump1
  {
  }
}

=== FILE: web_handler.dfy ===
/**
  The control surface of the web server: the manual toggle behind `/control`,
  the flow-rate ("debit") rule, and the pump-flag fragment of the `/sensor`
  JSON report.
 */
module WebHandler {
  import opened Wrappers
  import opened Pumps

  const HTTP_OK: nat := 200
  const HTTP_BAD_REQUEST: nat := 400

  /** Status code and plain-text body of an HTTP reply. */
  datatype Response = Response(status: nat, body: string)

  /** The state after a request, the relay writes it made, and the reply sent. */
  datatype Handled = Handled(next: Controller, writes: seq<PinWrite>, response: Response)

  /** The value of the `pump` argument that names each pump. */
  function PumpArg(p: PumpId): string
  {
    match p
    case Pump1 => "1"
    case Pump2 => "2"
    case Pump3 => "3"
  }

  /**
    The text a comparison of an Arduino `String` with a C string literal
    sees: `strcmp` stops at the first NUL, so the argument is read only up to
    its first '\0' (a `%00` in the query survives URL decoding).
   */
  function CText(s: string): (t: string)
    ensures t <= s
    ensures '\0' !in t
    ensures t == s || s[|t|] == '\0'
  {
    if |s| == 0 || s[0] == '\0' then []
    else
      var t := CText(s[1..]);
      assert s == [s[0]] + s[1..];
      [s[0]] + t
  }

  /**
    The pump a `pump` argument names: its C text must be exactly "1", "2" or
    "3"; `None` for any other text.
   */
  function PumpNamed(arg: string): (r: Option<PumpId>)
    ensures r.Some? ==> PumpArg(r.value) == CText(arg)
    ensures forall p :: PumpArg(p) == CText(arg) ==> r == Some(p)
  {
    var t := CText(arg);
    if t == "1" then Some(Pump1)
    else if t == "2" then Some(Pump2)
    else if t == "3" then Some(Pump3)
    else None
  }

  /** An argument without a NUL names a pump exactly when it is the whole string "1", "2" or "3". */
  lemma PumpNamedWhole(arg: string)
    requires '\0' !in arg
    ensures forall p :: PumpNamed(arg) == Some(p) <==> arg == PumpArg(p)
  {
    assert CText(arg) == arg;
  }

  /** Whatever follows a NUL is ignored: "1\0x" still names pump 1. */
  lemma PumpNamedStopsAtNul(p: PumpId, rest: string)
    ensures PumpNamed(PumpArg(p) + "\0" + rest) == Some(p)
  {
    var arg := PumpArg(p) + "\0" + rest;
    assert arg[|PumpArg(p)|] == '\0';
  }

  /** Pump `p`'s flag inverted; the other flags and both debounce clocks are left alone. */
  function Toggled(c: Controller, p: PumpId): (n: Controller)
    ensures n.IsOn(p) == !c.IsOn(p)
    ensures forall q :: q != p ==> n.IsOn(q) == c.IsOn(q)
    ensures n.lastChange1 == c.lastChange1 && n.lastChange2 == c.lastChange2
  {
    match p
    case Pump1 => c.(pump1 := !c.pump1)
    case Pump2 => c.(pump2 := !c.pump2)
    case Pump3 => c.(pump3 := !c.pump3)
  }

  /**
    `GET /control?pump=<arg>`. A missing argument is a 400 that changes
    nothing. Otherwise the reply is always 200 "Pompa <arg> toggled", with the
    whole argument; a pump named by the argument's C text has its flag
    flipped at once, whatever its debounce clock says, and its relay written;
    any other argument changes nothing.
   */
  function HandleControl(c: Controller, pumpArg: Option<string>): (h: Handled)
    ensures pumpArg.None? ==> h == Handled(c, [], Response(HTTP_BAD_REQUEST, "Bad Request"))
    ensures pumpArg.Some? ==> h.response == Response(HTTP_OK, "Pompa " + pumpArg.value + " toggled")
    ensures forall p :: pumpArg.Some? && CText(pumpArg.value) == PumpArg(p) ==>
              && h.next.IsOn(p) == !c.IsOn(p)
              && (forall q :: q != p ==> h.next.IsOn(q) == c.IsOn(q))
              && h.writes == [Command(p, h.next.IsOn(p))]
    ensures pumpArg.Some? && PumpNamed(pumpArg.value).None? ==> h.next == c && h.writes == []
    ensures h.next.lastChange1 == c.lastChange1 && h.next.lastChange2 == c.lastChange2
    ensures h.writes == Changes(c, h.next)
  {
    match pumpArg
    case None => Handled(c, [], Response(HTTP_BAD_REQUEST, "Bad Request"))
    case Some(arg) =>
      var reply := Response(HTTP_OK, "Pompa " + arg + " toggled");
      match PumpNamed(arg)
      case None => Handled(c, [], reply)
      case Some(p) =>
        var n := Toggled(c, p);
        Handled(n, [Command(p, n.IsOn(p))], reply)
  }

  /** Two identical toggle requests in a row restore the controller exactly. */
  lemma ToggleInvolution(c: Controller, pumpArg: Option<string>)
    ensures HandleControl(HandleControl(c, pumpArg).next, pumpArg).next == c
  {
  }

  /** The reported flow rate, 26.785 mL/s, in thousandths of a millilitre per second. */
  const DEBIT: nat := 26785

  /** The flow rate reported in thousandths of mL/s: the fixed constant while any pump runs. */
  function Debit(c: Controller): (d: nat)
    ensures d == DEBIT <==> exists p :: c.IsOn(p)
    ensures d == 0 <==> forall p :: !c.IsOn(p)
  {
    if c.pump1 || c.pump2 || c.pump3 then
      assert c.IsOn(Pump1) || c.IsOn(Pump2) || c.IsOn(Pump3);
      DEBIT
    else 0
  }

  function BoolLiteral(b: bool): string
  {
    if b then "true" else "false"
  }

  /** One `"<key>":<flag>,` member of the report. */
  function FlagMember(key: string, b: bool): string
  {
    "\"" + key + "\":" + BoolLiteral(b) + ","
  }

  /** The head of the `/sensor` report: the opening brace and the three pump flags, in pump order. */
  function StatusFlagsJson(c: Controller): string
  {
    "{" + (FlagMember("pump1", c.pump1) + (FlagMember("pump2", c.pump2) + FlagMember("pump3", c.pump3)))
  }

  /** The rest of `s` after the literal prefix `lit`, matched character by character, if `s` starts with it. */
  function Expect(lit: string, s: string): (r: Option<string>)
    ensures r.Some? <==> lit <= s
    ensures r.Some? ==> s == lit + r.value
  {
    if |lit| == 0 then Some(s)
    else if |s| > 0 && s[0] == lit[0] then
      var r := Expect(lit[1..], s[1..]);
      assert r.Some? ==> s == [s[0]] + s[1..] == lit + r.value;
      r
    else None
  }

  /** A `true` or `false` literal at the start of `s`, and what follows it. */
  function ReadBool(s: string): Option<(bool, string)>
  {
    if "true" <= s then Some((true, s[4..]))
    else if "false" <= s then Some((false, s[5..]))
    else None
  }

  function ReadFlagMember(key: string, s: string): Option<(bool, string)>
  {
    match Expect("\"" + key + "\":", s)
    case None => None
    case Some(afterKey) =>
      match ReadBool(afterKey)
      case None => None
      case Some((b, afterValue)) =>
        match Expect(",", afterValue)
        case None => None
        case Some(rest) => Some((b, rest))
  }

  /** Reads the three pump flags back from the head of a report, in the order pump1, pump2, pump3. */
  function ParseStatusFlags(s: string): Option<(bool, bool, bool)>
  {
    match Expect("{", s)
    case None => None
    case Some(s0) =>
      match ReadFlagMember("pump1", s0)
      case None => None
      case Some((b1, s1)) =>
        match ReadFlagMember("pump2", s1)
        case None => None
        case Some((b2, s2)) =>
          match ReadFlagMember("pump3", s2)
          case None => None
          case Some((b3, _)) => Some((b1, b2, b3))
  }

  lemma {:induction false} ExpectPrefix(lit: string, rest: string)
    ensures Expect(lit, lit + rest) == Some(rest)
  {
    if |lit| == 0 {
      assert lit + rest == rest;
    } else {
      assert (lit + rest)[0] == lit[0];
      assert (lit + rest)[1..] == lit[1..] + rest;
      ExpectPrefix(lit[1..], rest);
    }
  }

  lemma ReadBoolLiteral(b: bool, rest: string)
    ensures ReadBool(BoolLiteral(b) + rest) == Some((b, rest))
  {
    var s := BoolLiteral(b) + rest;
    if b {
      assert s[4..] == rest;
    } else {
      assert s[0] == 'f';
      assert !("true" <= s);
      assert s[5..] == rest;
    }
  }

  /** Proof hint: regroups a concatenation so that the parser's next literal comes first. */
  lemma AppendAssoc(a: string, b: string, c: string)
    ensures (a + b) + c == a + (b + c)
  {
  }

  lemma ReadFlagMemberRoundTrip(key: string, b: bool, rest: string)
    ensures ReadFlagMember(key, FlagMember(key, b) + rest) == Some((b, rest))
  {
    var head := "\"" + key + "\":";
    var lit := BoolLiteral(b);
    assert FlagMember(key, b) == (head + lit) + ",";
    AppendAssoc(head + lit, ",", rest);
    AppendAssoc(head, lit, "," + rest);
    ExpectPrefix(head, lit + ("," + rest));
    ReadBoolLiteral(b, "," + rest);
    ExpectPrefix(",", rest);
  }

  /**
    Whatever follows it, the head of a report reads back as exactly the three
    pump flags, pump 1 first: the fixed key order identifies each pump.
   */
  lemma StatusFlagsRoundTrip(c: Controller, rest: string)
    ensures ParseStatusFlags(StatusFlagsJson(c) + rest) == Some((c.pump1, c.pump2, c.pump3))
  {
    var m1 := FlagMember("pump1", c.pump1);
    var m2 := FlagMember("pump2", c.pump2);
    var m3 := FlagMember("pump3", c.pump3);
    AppendAssoc("{", m1 + (m2 + m3), rest);
    AppendAssoc(m1, m2 + m3, rest);
    AppendAssoc(m2, m3, rest);
    var s2 := m3 + rest;
    var s1 := m2 + s2;
    var s0 := m1 + s1;
    ExpectPrefix("{", s0);
    ReadFlagMemberRoundTrip("pump1", c.pump1, s1);
    ReadFlagMemberRoundTrip("pump2", c.pump2, s2);
    ReadFlagMemberRoundTrip("pump3", c.pump3, rest);
  }

  /** Two controllers with the same report head agree on every pump flag. */
  lemma StatusFlagsDistinguish(c: Controller, d: Controller)
    requires StatusFlagsJson(c) == StatusFlagsJson(d)
    ensures forall p :: c.IsOn(p) == d.IsOn(p)
  {
    StatusFlagsRoundTrip(c, []);
    StatusFlagsRoundTrip(d, []);
    assert StatusFlagsJson(c) + [] == StatusFlagsJson(d) + [];
  }
}

=== FILE: wrappers.dfy ===
/** The optional-value type used where the controller may or may not receive a value. */
module Wrappers {

  /** `None` stands for an absent value (a missing request argument, a failed parse). */
  datatype Option<+T> = None | Some(value: T)
}
